=== FILE: README.md ===
# Tenant provisioning model

A Dafny model of the tenant-provisioning core of a multi-tenant service in
which every tenant (an *organization*) owns one database schema named after
its tenant id, and a registry table (`organizations`, in the public/metadata
schema) lists the known tenants.

The database is abstracted to a `State`:

- `registry`: the `organizations` rows, in insertion order (see "## Left out" for this ordering assumption);
- `schemas`: the tenant schemas that exist;
- `migrated`: the tenant schemas whose tenant migrations completed;
- `publicReady`: whether the public schema and its metadata migrations are set up.

Whether a database step fails is decided by an explicit failure oracle,
`SchemaManager.Env`. It gives the outcome for the public schema and, for each
tenant id, one `Step`: `Succeeds`, `CreateFails` (the `CREATE SCHEMA` statement
fails) or `MigrateFails` (the schema is created but the migrations fail).
Every operation is a pure function from a `State` (plus its inputs and the
oracle) to a result and a new `State`.

Modules, following the source components (`Quoting` is split out of the schema manager, and `Wrappers` is a helper):

- `Quoting` (`quoting.dfy`): `quoteTenantIdentifier`, its inverse, and a lexer
  for delimited identifiers as section 5.2 of ISO/IEC 9075-2 defines them
  (`<delimited identifier>`, `<doublequote symbol>`). With the lexer, injection
  safety is a theorem. The quoted id, placed in a statement, is read back as
  exactly that id, and the identifier ends exactly at its closing quote.
- `Organizations` (`organization.dfy`): the `Organization` record, its
  getters (its field selectors) and setters, `findByTenantId` and `findAllOrganizations` over the
  registry sequence.
- `TenantResolution` (`resolver.dfy`): the constant resolver (`"base"`).
- `SchemaManager` (`schema_manager.dfy`): the DDL statement and how it is read,
  `initializeTenantSchema`, `initializePublicSchema`, and `onStart`
  (public schema first, then each registered tenant in order, aborting at the
  first failure).
- `Admin` (`admin.dfy`): `createOrganization`, `listOrganizations` and
  `deleteOrganization`, each returning an HTTP status and body together with
  the new state. It also holds a request-sequence runner used to state the
  registry invariant.
- `Wrappers` (`wrappers.dfy`): `Option`, standing for Java's `null`.

Behaviour of the code that the model follows:

- The code never validates tenant ids against a pattern; it only quotes them.
  So no validation is modelled, and any string, including one with quotes, is
  a tenant id.
- `onStart` rethrows the first tenant failure and stops. It does not continue
  and report a list of failed tenants. `SchemaManager.OnStart` aborts
  accordingly (see `StartupAbortsAtFirstFailure`).
- `createOrganization` persists the row, then catches the provisioning
  exception inside its transactional method and returns 400; the exception
  never reaches the transaction boundary. The model assumes that the
  transaction then commits, so the row is kept on the 400 path. This is a
  modelling assumption: the provisioning connection comes from the same
  data source, and a database that aborts the transaction after a failed
  statement would drop the row at commit. `RetryAfterFailedCreateConflicts`
  and `EmptyTenantIdBlocksStartup` are to be read under this assumption.
- The empty tenant id is not rejected by the code. Its quoted form `""` is a
  zero-length delimited identifier, which section 5.2 of ISO/IEC 9075-2 does
  not allow, so the `CREATE SCHEMA` statement fails. `InitializeTenantSchema`
  fails on the empty id by a direct test, independent of the oracle;
  `InitializeFollowsStatement` proves that this is exactly the case in which
  the lexer rejects the statement, and `EmptyTenantIdBlocksStartup` shows
  that a registered empty id makes every startup fail.

## Model

| member | source | states |
|---|---|---|
| Quoting.Escape | src/main/java/me/cresterida/tenant/TenantSchemaManager.java:122 | replacing each `"` by `""` lengthens the id by one per quote and exactly doubles its quote count |
| Quoting.Quote | src/main/java/me/cresterida/tenant/TenantSchemaManager.java:121-123 | the quoted id starts and ends with `"`, is two characters plus one per embedded quote longer than the id, and its inside is the escaped id |
| Quoting.QuoteWithoutQuotes | src/main/java/me/cresterida/tenant/TenantSchemaManager.java:122 | an id without quotes is quoted by wrapping alone: `"` + s + `"` |
| Quoting.QuoteExample | src/main/java/me/cresterida/tenant/TenantSchemaManager.java:122 | `a"b` quotes to `"a""b"`, which unquotes back to `a"b` |
| Quoting.UnquoteQuote | src/main/java/me/cresterida/tenant/TenantSchemaManager.java:122 | round trip: stripping the outer quotes and collapsing each `""` gives back the original id |
| Quoting.QuoteUnquote | src/main/java/me/cresterida/tenant/TenantSchemaManager.java:122 | the other direction: any text that unquotes to some id is exactly that id's quoted form |
| Quoting.QuoteInjective | src/main/java/me/cresterida/tenant/TenantSchemaManager.java:122 | distinct tenant ids never share a quoted schema name |
| Quoting.EscapedQuotesPaired | src/main/java/me/cresterida/tenant/TenantSchemaManager.java:122 | inside the quoted form, every `"` is part of an adjacent doubled pair |
| Quoting.PairedIffUnescapes | src/main/java/me/cresterida/tenant/TenantSchemaManager.java:122 | a body has only paired quotes exactly when collapsing them succeeds, so the paired bodies are exactly the escapes of ids |
| Quoting.QuotedIdentifierLexes | src/main/java/me/cresterida/tenant/TenantSchemaManager.java:122 | injection safety: the quoted form of a non-empty id, followed by text that does not begin with `"`, is lexed as one delimited identifier naming exactly that id and ending exactly at the closing quote |
| Quoting.EmptyQuotedIdentifierRejected | src/main/java/me/cresterida/tenant/TenantSchemaManager.java:122 | the quoted empty id `""` is not a delimited identifier |
| SchemaManager.Message | src/main/java/me/cresterida/tenant/TenantSchemaManager.java:97 | the public failure carries the fixed message "Failed to initialize public schema"; a tenant failure's message is "Failed to initialize tenant schema: " followed by exactly the tenant id |
| SchemaManager.MessageIdentifiesError | src/main/java/me/cresterida/tenant/TenantSchemaManager.java:117 | distinct errors have distinct messages: the message tells a public failure from a tenant failure and names the failing tenant |
| SchemaManager.CreateSchemaStatement | src/main/java/me/cresterida/tenant/TenantSchemaManager.java:106 | the DDL text starts with `CREATE SCHEMA IF NOT EXISTS ` and the rest of it unquotes to exactly the tenant id |
| SchemaManager.StatementNamesTenant | src/main/java/me/cresterida/tenant/TenantSchemaManager.java:106 | the `CREATE SCHEMA IF NOT EXISTS` text built for a tenant id is exactly one statement naming that schema; only the empty id yields a rejected statement |
| SchemaManager.InitializeTenantSchema | src/main/java/me/cresterida/tenant/TenantSchemaManager.java:101-119 | create-if-absent then migrate: success iff the id is non-empty and the oracle lets both steps pass; success adds the id to the schema and migrated sets; a failure is an error naming the id; a migration failure leaves the schema created but unmigrated; no other schema is added; the registry and public flag are unchanged |
| SchemaManager.InitializeFollowsStatement | src/main/java/me/cresterida/tenant/TenantSchemaManager.java:106 | provisioning adds exactly the schema its `CREATE SCHEMA IF NOT EXISTS` text names; when that text is rejected, provisioning fails and changes nothing |
| SchemaManager.InitializeTenantSchemaIdempotent | src/main/java/me/cresterida/tenant/TenantSchemaManager.java:101-119 | calling it twice gives the same outcome and state as calling it once |
| SchemaManager.InitializeAbsorbed | src/main/java/me/cresterida/tenant/TenantSchemaManager.java:101-119 | on a tenant whose schema exists and is migrated, a succeeding call changes nothing |
| SchemaManager.InitializePublicSchema | src/main/java/me/cresterida/tenant/TenantSchemaManager.java:74-99 | success iff the oracle lets the public step pass; success sets the public flag; failure raises the public-schema error; tenant schemas and registry untouched |
| SchemaManager.ReconcileTenants | src/main/java/me/cresterida/tenant/TenantSchemaManager.java:32-38 | the attempted tenants are a prefix of the list, in list order, and the whole list when the loop completes; a failure is the error naming the last attempted tenant; the registry and public flag are unchanged |
| SchemaManager.ReconcileStopsAtFirstFailure | src/main/java/me/cresterida/tenant/TenantSchemaManager.java:32-42 | abort at the first failure: every attempted tenant but the last succeeded, a failed run's last tenant failed, and the loop completes iff every tenant succeeds |
| SchemaManager.ReconcileSchemas | src/main/java/me/cresterida/tenant/TenantSchemaManager.java:32-38 | the schemas after the loop are those before plus the attempted tenants whose create step passed, and the migrated ones those before plus the attempted tenants that succeeded; nothing else is added or removed |
| SchemaManager.OnStart | src/main/java/me/cresterida/tenant/TenantSchemaManager.java:22-43 | the trace starts with the public schema and continues with tenants in registry order; a public failure ends startup with the public error and no change before any tenant; tenants are touched only once the public schema is ready; the registry is unchanged |
| SchemaManager.OnStartSchemas | src/main/java/me/cresterida/tenant/TenantSchemaManager.java:22-43 | startup only adds schemas: after the public step passes, the schemas are those before plus the attempted registry prefix whose create step passed, and the migrated set likewise with the tenants that succeeded; no schema or migration mark is ever dropped, including those of unregistered tenants |
| SchemaManager.OnStartOutcome | src/main/java/me/cresterida/tenant/TenantSchemaManager.java:22-43 | startup succeeds iff the public schema and every registered tenant can be provisioned; a later failure names the first failing tenant in registry order, all before it succeeded, none after it was attempted |
| SchemaManager.OnStartProvisionsAll | src/main/java/me/cresterida/tenant/TenantSchemaManager.java:32-38 | after a successful startup the public schema is ready and every registered tenant has a migrated schema, each registry row visited once (a tenant id on two rows is provisioned twice) |
| SchemaManager.ReconcileIdempotent | src/main/java/me/cresterida/tenant/TenantSchemaManager.java:32-38 | re-running the tenant loop on its own result reproduces the same outcome, attempts and state |
| SchemaManager.OnStartIdempotent | src/main/java/me/cresterida/tenant/TenantSchemaManager.java:22-43 | a restart on the state a startup left behind yields the same outcome, trace and state |
| SchemaManager.StartupAbortsAtFirstFailure | src/main/java/me/cresterida/tenant/TenantSchemaManager.java:32-42 | with tenants acme, beta, gamma and beta failing, startup fails naming beta, acme has its schema, gamma is never attempted |
| SchemaManager.EmptyTenantIdBlocksStartup | src/main/java/me/cresterida/tenant/TenantSchemaManager.java:32-42 | a registered row with an empty tenant id makes every startup fail |
| Organizations.Organization.SetName | src/main/java/me/cresterida/tenant/Organization.java:22-28 | after `setName(n)`, the name (`getName()`) is `n` and the other two fields are unchanged |
| Organizations.Organization.SetTenantId | src/main/java/me/cresterida/tenant/Organization.java:30-36 | after `setTenantId(t)`, the tenant id (`getTenantId()`) is `t` and the other two fields are unchanged |
| Organizations.Organization.SetSubscriptionPlan | src/main/java/me/cresterida/tenant/Organization.java:38-44 | after `setSubscriptionPlan(p)`, the plan (`getSubscriptionPlan()`) is `p` and the other two fields are unchanged |
| Organizations.FirstIndexOf | src/main/java/me/cresterida/tenant/Organization.java:47-49 | the position found holds the tenant id and no earlier row does; none is found iff no row has the id |
| Organizations.FindByTenantId | src/main/java/me/cresterida/tenant/Organization.java:47-49 | the row returned has the requested tenant id, is in the registry, and is the first such row; `null` iff no row has that id |
| Organizations.FindIffListed | src/main/java/me/cresterida/tenant/Organization.java:47-53 | a lookup finds a row iff the full listing holds a row with that tenant id |
| Organizations.FindAllOrganizations | src/main/java/me/cresterida/tenant/Organization.java:51-53 | the listing has as many rows as the registry, and the same row at every position |
| Organizations.FindAllIsRegistry | src/main/java/me/cresterida/tenant/Organization.java:51-53 | the listing is the registry sequence itself |
| Organizations.FindUniqueMatch | src/main/java/me/cresterida/tenant/Organization.java:47-49 | with unique tenant ids, the lookup returns the one row carrying the id |
| Organizations.RemoveAt | src/main/java/me/cresterida/admin/AdminResource.java:130 | deleting a row shortens the registry by one and keeps the other rows in their order |
| Organizations.RemovePreservesUnique | src/main/java/me/cresterida/admin/AdminResource.java:130 | deleting a row keeps tenant ids unique |
| Organizations.RemoveOnlyMatch | src/main/java/me/cresterida/admin/AdminResource.java:130 | with unique ids, deleting the row of a tenant leaves no row with its id |
| TenantResolution.GetDefaultTenantId | src/main/java/me/cresterida/tenant/CurrentTenantResolver.java:14-19 | the default tenant is `base`: non-empty, free of quotes, quoted by wrapping alone, and its quoted form unquotes back to it |
| TenantResolution.ResolveTenantId | src/main/java/me/cresterida/tenant/CurrentTenantResolver.java:21-28 | total for every request; always equal to the default tenant |
| TenantResolution.ResolutionIgnoresRequest | src/main/java/me/cresterida/tenant/CurrentTenantResolver.java:21-28 | any two requests resolve to the same tenant, `base` |
| Admin.NewOrganization | src/main/java/me/cresterida/admin/AdminResource.java:64-67 | the new row carries the request's name, tenant id and plan |
| Admin.CreateOrganization | src/main/java/me/cresterida/admin/AdminResource.java:48-85 | the status is 201, 400 or 409; a registered id gives 409 with no state change; otherwise exactly one row with the request's fields is appended before provisioning; 201 when provisioning succeeds and 400 whenever it fails, never 409; on 201 the schema exists and is migrated; 400 carries "Failed to create organization: " and the schema error's message, and the row stays; the schema set gains the new id exactly when its create step passes and the migrated set exactly when provisioning succeeds, and otherwise both are unchanged |
| Admin.ListOrganizations | src/main/java/me/cresterida/admin/AdminResource.java:96-106 | 200 with every registry row in order; nothing changes |
| Admin.DeleteOrganization | src/main/java/me/cresterida/admin/AdminResource.java:120-141 | an absent id gives 404 and no change; a present id gives 204 and the first row with it is removed; schemas, migrations and the public flag are never touched |
| Admin.CreatePreservesUnique | src/main/java/me/cresterida/admin/AdminResource.java:56-70 | the conflict check keeps registry tenant ids pairwise distinct across a create |
| Admin.DeletePreservesUnique | src/main/java/me/cresterida/admin/AdminResource.java:120-133 | a delete keeps registry tenant ids pairwise distinct |
| Admin.DeletedTenantGoneSchemaKept | src/main/java/me/cresterida/admin/AdminResource.java:129-133 | with unique tenant ids, after deleting a registered tenant, lookups no longer find it, while its schema still exists (with a tenant id on two rows, delete removes only the first and the lookup then finds the second) |
| Admin.RetryAfterFailedCreateConflicts | src/main/java/me/cresterida/admin/AdminResource.java:56-83 | after a create answered 400, the same request gets 409 and changes nothing, because the row was persisted before provisioning failed |
| Admin.CreatedIsFound | src/main/java/me/cresterida/admin/AdminResource.java:63-77 | after a 201, a lookup of the new tenant id returns exactly the new row, whatever the registry held before |
| Admin.RunPreservesUnique | src/main/java/me/cresterida/admin/AdminResource.java:56-70 | across any sequence of creates, lists, deletes and restarts, unique registry tenant ids stay unique |
| Admin.RunKeepsSchemas | src/main/java/me/cresterida/admin/AdminResource.java:120-141 | across any sequence of creates, lists, deletes and restarts no schema is dropped, so a deleted tenant's schema survives every later restart |
| Admin.CreateListDeleteScenario | src/main/java/me/cresterida/admin/AdminResource.java:48-141 | from an empty registry, when provisioning acme succeeds: creating acme gives 201 with a migrated schema; listing shows exactly that row; deleting gives 204, the lookup finds nothing, and the schema acme remains |

## Left out

- Flyway migrations (TenantSchemaManager.java:83-90 and 109-114): the version ledger, script ordering and per-script atomicity live inside the migration library. Migration is one oracle step (`MigrateFails`), and `migrated` records completed runs only.
- The observation that the migration call passes the tenant id to `.schemas(...)` unquoted (line 111) is not modelled; only the `CREATE SCHEMA` text goes through `Quote`.
- SchemaManager.InitializePublicSchema: the public schema is one flag. Its `CREATE SCHEMA IF NOT EXISTS public` (unquoted, constant) and its metadata migrations are one oracle step, so "created but not migrated" is not distinguished for it, and it is not an element of the tenant schema set.
- JDBC connections, `SET search_path`, `Thread.sleep(1000)` and logging: I/O and timing with no effect on the modelled state.
- `verifyOrganizationsTable` (TenantSchemaManager.java:45-72): never called; it consists of JDBC metadata queries.
- Transaction rollback and concurrency: the model is sequential. The check-then-insert race in create, concurrent provisioning of one id, and failures at commit time are not modelled, and no storage-level unique constraint is assumed.
- Admin.ListOrganizations, Admin.DeleteOrganization: the 500 responses for exceptions from registry queries are not modelled, because the oracle covers schema provisioning only. Likewise these registry failures are not modelled: a failing `persist` in create; `findByTenantId` throwing in create (AdminResource.java:57), which the catch at lines 79-83 answers with 400 "Failed to create organization: …"; and `findAllOrganizations` throwing in `onStart` (TenantSchemaManager.java:32), which line 41 rethrows, so startup fails with an error that is neither the public nor a tenant schema error.
- SchemaManager.OnStartOutcome: its "succeeds iff" holds under the assumption that the registry listing at startup does not fail.
- Admin.CreateOrganization: its 409/201/400 split holds under the assumption that the registry lookup and `persist` do not fail; a failing lookup would give 400 without a new row.
- Java `null` fields: request fields and tenant ids are strings, never `null`.
- Surrogate entity id: rows carry no generated `id`, and delete removes the first row with the tenant id. Neither `firstResult()` nor `listAll()` has an `ORDER BY`; both queries are taken to return rows in insertion order and to see the same order. The startup order of `SchemaManager.OnStart`, the "first failing tenant" of `SchemaManager.OnStartOutcome`, the row order of `Admin.ListOrganizations`, and which of several rows with one id `Organizations.FindByTenantId` returns all rest on this assumption.
- Database-specific identifier rules beyond section 5.2 of ISO/IEC 9075-2, such as PostgreSQL's 63-byte truncation of identifiers, are not modelled.
- Identifier validation against a letters/digits/underscore pattern: the code has none (see above).
- Metrics (`TenantMetrics`, `MetricsConfiguration`), HTTP/OpenAPI wiring (`ApplicationConfig`), the demo `GreetingResource`, and the config-injected default schema of `TenantConfig`: framework wiring outside the core. `OrganizationDTO` and `ErrorResponse` appear only as the `Admin.OrganizationDTO` input and the `Admin.ErrorBody` output.

=== FILE: admin.dfy ===
/** The admin endpoints: create, list and delete organizations, each a
    transition from a `State` to a `State` plus an HTTP response. */
module Admin {
  import opened Wrappers
  import opened Organizations
  import opened SchemaManager

  /** The creation request body. */
  datatype OrganizationDTO = OrganizationDTO(name: string, tenantId: string, subscriptionPlan: string)

  /** Response entities: an organization, a list of them, an error message
      (`ErrorResponse`), or no entity. */
  datatype Body = OrganizationBody(org: Organization)
                | OrganizationList(orgs: seq<Organization>)
                | ErrorBody(message: string)
                | NoContent

  datatype Response = Response(status: int, body: Body)

  const OK: int := 200
  const CREATED: int := 201
  const NO_CONTENT: int := 204
  const BAD_REQUEST: int := 400
  const NOT_FOUND: int := 404
  const CONFLICT: int := 409

  const CreateFailurePrefix: string := "Failed to create organization: "

  datatype AdminResult = AdminResult(response: Response, state: State)

  /** The row `createOrganization` builds from a request. */
  function NewOrganization(dto: OrganizationDTO): (o: Organization)
    ensures o.name == dto.name
    ensures o.tenantId == dto.tenantId
    ensures o.subscriptionPlan == dto.subscriptionPlan
  {
    Organization("", "", "")
      .SetName(dto.name)
      .SetTenantId(dto.tenantId)
      .SetSubscriptionPlan(dto.subscriptionPlan)
  }

  /** `createOrganization`: 409 and no change when the tenant id is already
      registered; otherwise the row is appended (persisted) first, then the
      schema is provisioned: 201 with the new row on success, 400 with the
      schema error's message on failure. The appended row stays in the
      registry in both cases. */
  function CreateOrganization(s: State, dto: OrganizationDTO, env: Env): (r: AdminResult)
    ensures r.response.status in {CREATED, BAD_REQUEST, CONFLICT}
    ensures HasTenant(s.registry, dto.tenantId) ==>
              r == AdminResult(Response(CONFLICT, ErrorBody("Tenant ID already exists")), s)
    ensures !HasTenant(s.registry, dto.tenantId) ==>
              && r.state.registry == s.registry + [Organization(dto.name, dto.tenantId, dto.subscriptionPlan)]
              && r.state.publicReady == s.publicReady
              && r.response.status == (if TenantInitSucceeds(env, dto.tenantId) then CREATED else BAD_REQUEST)
              && r.state.schemas == (if SchemaCreated(env, dto.tenantId) then s.schemas + {dto.tenantId} else s.schemas)
              && r.state.migrated == (if TenantInitSucceeds(env, dto.tenantId) then s.migrated + {dto.tenantId} else s.migrated)
    ensures r.response.status == CREATED ==>
              && r.response.body == OrganizationBody(Organization(dto.name, dto.tenantId, dto.subscriptionPlan))
              && dto.tenantId in r.state.schemas && dto.tenantId in r.state.migrated
              && r.state.schemas == s.schemas + {dto.tenantId}
    ensures r.response.status == BAD_REQUEST ==>
              r.response.body == ErrorBody(CreateFailurePrefix + Message(TenantSchemaFailed(dto.tenantId)))
  {
    if FindByTenantId(s.registry, dto.tenantId).Some? then
      AdminResult(Response(CONFLICT, ErrorBody("Tenant ID already exists")), s)
    else
      var org := NewOrganization(dto);
      var persisted := s.(registry := s.registry + [org]);
      var init := InitializeTenantSchema(persisted, org.tenantId, env);
      match init.outcome
      case Done => AdminResult(Response(CREATED, OrganizationBody(org)), init.state)
      case Failed(e) => AdminResult(Response(BAD_REQUEST, ErrorBody(CreateFailurePrefix + Message(e))), init.state)
  }

  /** `listOrganizations`: 200 with every registry row in order; no change. */
  function ListOrganizations(s: State): (r: AdminResult)
    ensures r.response.status == OK
    ensures r.response.body.OrganizationList? && |r.response.body.orgs| == |s.registry|
    ensures forall i :: 0 <= i < |s.registry| ==> r.response.body.orgs[i] == s.registry[i]
    ensures r.state == s
  {
    AdminResult(Response(OK, OrganizationList(FindAllOrganizations(s.registry))), s)
  }

  /** `deleteOrganization`: 404 and no change when no row has the tenant id;
      otherwise the first such row is removed and 204 is returned. The
      schema set is never touched, so the tenant's schema outlives its row. */
  function DeleteOrganization(s: State, tenantId: string): (r: AdminResult)
    ensures r.response.status in {NO_CONTENT, NOT_FOUND}
    ensures !HasTenant(s.registry, tenantId) ==>
              r == AdminResult(Response(NOT_FOUND, ErrorBody("Organization not found")), s)
    ensures HasTenant(s.registry, tenantId) ==>
              && r.response == Response(NO_CONTENT, NoContent)
              && FirstIndexOf(s.registry, tenantId).Some?
              && r.state.registry == RemoveAt(s.registry, FirstIndexOf(s.registry, tenantId).value)
    ensures r.state.schemas == s.schemas && r.state.migrated == s.migrated
    ensures r.state.publicReady == s.publicReady
  {
    match FirstIndexOf(s.registry, tenantId)
    case None => AdminResult(Response(NOT_FOUND, ErrorBody("Organization not found")), s)
    case Some(i) => AdminResult(Response(NO_CONTENT, NoContent), s.(registry := RemoveAt(s.registry, i)))
  }

  /** Create keeps tenant ids pairwise distinct: the conflict check refuses a
      second row for a registered id. */
  lemma CreatePreservesUnique(s: State, dto: OrganizationDTO, env: Env)
    requires UniqueTenantIds(s.registry)
    ensures UniqueTenantIds(CreateOrganization(s, dto, env).state.registry)
  {
  }

  /** Delete keeps tenant ids pairwise distinct. */
  lemma DeletePreservesUnique(s: State, tenantId: string)
    requires UniqueTenantIds(s.registry)
    ensures UniqueTenantIds(DeleteOrganization(s, tenantId).state.registry)
  {
  }

  /** After deleting a registered tenant (ids unique), lookups no longer find
      it, but its schema still exists. */
  lemma DeletedTenantGoneSchemaKept(s: State, tenantId: string)
    requires UniqueTenantIds(s.registry)
    requires HasTenant(s.registry, tenantId)
    ensures var after := DeleteOrganization(s, tenantId).state;
            && FindByTenantId(after.registry, tenantId) == None
            && (tenantId in s.schemas ==> tenantId in after.schemas)
  {
  }

  /** A create that fails with 400 has still registered the row, so the same
      request sent again is refused with 409 and changes nothing. */
  lemma RetryAfterFailedCreateConflicts(s: State, dto: OrganizationDTO, env: Env)
    requires CreateOrganization(s, dto, env).response.status == BAD_REQUEST
    ensures var after := CreateOrganization(s, dto, env).state;
            CreateOrganization(after, dto, env)
              == AdminResult(Response(CONFLICT, ErrorBody("Tenant ID already exists")), after)
  {
    var after := CreateOrganization(s, dto, env).state;
    assert after.registry[|s.registry|].tenantId == dto.tenantId;
  }

  /** A successful create is found by a later lookup. */
  lemma CreatedIsFound(s: State, dto: OrganizationDTO, env: Env)
    requires CreateOrganization(s, dto, env).response.status == CREATED
    ensures FindByTenantId(CreateOrganization(s, dto, env).state.registry, dto.tenantId)
              == Some(Organization(dto.name, dto.tenantId, dto.subscriptionPlan))
  {
    var reg := CreateOrganization(s, dto, env).state.registry;
    assert !HasTenant(s.registry, dto.tenantId);
    assert forall j :: 0 <= j < |s.registry| ==> reg[j].tenantId != dto.tenantId;
    assert reg[|s.registry|].tenantId == dto.tenantId;
    assert |reg| == |s.registry| + 1;
    var f := FindByTenantId(reg, dto.tenantId);
    assert f.Some?;
    var i :| 0 <= i < |reg| && reg[i] == f.value && forall j :: 0 <= j < i ==> reg[j].tenantId != dto.tenantId;
    assert reg[i].tenantId == dto.tenantId;
    assert i == |s.registry|;
  }

  /** The admin requests, and a restart of the application. */
  datatype Request = Create(dto: OrganizationDTO) | List | Delete(tenantId: string) | Restart

  /** Applies one request to the state. */
  function Apply(s: State, q: Request, env: Env): State
  {
    match q
    case Create(dto) => CreateOrganization(s, dto, env).state
    case List => ListOrganizations(s).state
    case Delete(t) => DeleteOrganization(s, t).state
    case Restart => OnStart(s, env).state
  }

  /** Applies a sequence of requests, in order. */
  function Run(s: State, qs: seq<Request>, env: Env): State
    decreases |qs|
  {
    if qs == [] then s else Run(Apply(s, qs[0], env), qs[1..], env)
  }

  /** Registry invariant: whatever sequence of admin requests and restarts
      is applied, a registry with unique tenant ids keeps them unique. */
  lemma {:induction false} RunPreservesUnique(s: State, qs: seq<Request>, env: Env)
    requires UniqueTenantIds(s.registry)
    ensures UniqueTenantIds(Run(s, qs, env).registry)
    decreases |qs|
  {
    if qs != [] {
      match qs[0] {
        case Create(dto) => CreatePreservesUnique(s, dto, env);
        case List =>
        case Delete(t) => DeletePreservesUnique(s, t);
        case Restart =>
      }
      RunPreservesUnique(Apply(s, qs[0], env), qs[1..], env);
    }
  }

  /** Schemas are never dropped: whatever sequence of admin requests and
      restarts is applied, every schema that existed before still exists,
      including those of deleted tenants. */
  lemma {:induction false} RunKeepsSchemas(s: State, qs: seq<Request>, env: Env)
    ensures s.schemas <= Run(s, qs, env).schemas
    decreases |qs|
  {
    if qs != [] {
      match qs[0] {
        case Create(dto) =>
        case List =>
        case Delete(t) =>
        case Restart => OnStartSchemas(s, env);
      }
      RunKeepsSchemas(Apply(s, qs[0], env), qs[1..], env);
    }
  }

  /** The scenario from an empty registry: create `acme`, list it, delete it.
      The list shows exactly the new row; after the delete the row is gone
      and the schema `acme` remains. */
  lemma CreateListDeleteScenario(env: Env)
    requires TenantInitSucceeds(env, "acme")
    ensures var dto := OrganizationDTO("ACME Corp", "acme", "FREE");
            var acme := Organization("ACME Corp", "acme", "FREE");
            var created := CreateOrganization(State([], {}, {}, true), dto, env);
            var listed := ListOrganizations(created.state);
            var deleted := DeleteOrganization(listed.state, "acme");
            && created.response == Response(CREATED, OrganizationBody(acme))
            && listed.response.body == OrganizationList([acme])
            && "acme" in created.state.schemas && "acme" in created.state.migrated
            && deleted.response.status == NO_CONTENT
            && FindByTenantId(deleted.state.registry, "acme") == None
            && "acme" in deleted.state.schemas
  {
  }
}

=== FILE: organization.dfy ===
/** The tenant registry entry and the lookups over the registry.

    The registry is the `organizations` table of the metadata schema, modelled
    as a sequence of rows in insertion order. */
module Organizations {
  import opened Wrappers

  /** One tenant account: display name, tenant id (which doubles as the
      schema name) and subscription plan. The Java getters are the field
      selectors `name`, `tenantId` and `subscriptionPlan`. */
  datatype Organization = Organization(name: string, tenantId: string, subscriptionPlan: string)
  {
    /** Replaces the name; the other fields are untouched. */
    function SetName(n: string): (o: Organization)
      ensures o.name == n
      ensures o.tenantId == tenantId
      ensures o.subscriptionPlan == subscriptionPlan
    {
      this.(name := n)
    }

    /** Replaces the tenant id; the other fields are untouched. */
    function SetTenantId(t: string): (o: Organization)
      ensures o.tenantId == t
      ensures o.name == name
      ensures o.subscriptionPlan == subscriptionPlan
    {
      this.(tenantId := t)
    }

    /** Replaces the subscription plan; the other fields are untouched. */
    function SetSubscriptionPlan(p: string): (o: Organization)
      ensures o.subscriptionPlan == p
      ensures o.name == name
      ensures o.tenantId == tenantId
    {
      this.(subscriptionPlan := p)
    }
  }

  /** Some row of `registry` carries tenant id `t`. */
  predicate HasTenant(registry: seq<Organization>, t: string)
  {
    exists i :: 0 <= i < |registry| && registry[i].tenantId == t
  }

  /** No two rows of `registry` share a tenant id. */
  predicate UniqueTenantIds(registry: seq<Organization>)
  {
    forall i, j :: 0 <= i < j < |registry| ==> registry[i].tenantId != registry[j].tenantId
  }

  /** Position of the first row, at or after `from`, whose tenant id is `t`. */
  function FirstIndexFrom(registry: seq<Organization>, t: string, from: nat): (r: Option<nat>)
    requires from <= |registry|
    ensures r.Some? ==> from <= r.value < |registry| && registry[r.value].tenantId == t
    ensures r.Some? ==> forall j :: from <= j < r.value ==> registry[j].tenantId != t
    ensures r.None? ==> forall j :: from <= j < |registry| ==> registry[j].tenantId != t
    decreases |registry| - from
  {
    if from == |registry| then None
    else if registry[from].tenantId == t then Some(from)
    else FirstIndexFrom(registry, t, from + 1)
  }

  /** Position of the first row whose tenant id is `t`; `None` if there is none. */
  function FirstIndexOf(registry: seq<Organization>, t: string): (r: Option<nat>)
    ensures r.Some? ==> r.value < |registry| && registry[r.value].tenantId == t
    ensures r.Some? ==> forall j :: 0 <= j < r.value ==> registry[j].tenantId != t
    ensures r.None? <==> !HasTenant(registry, t)
  {
    FirstIndexFrom(registry, t, 0)
  }

  /** `Organization.findByTenantId`: the first matching row in registry order,
      or `None` (Java's `null`) when no row has that tenant id. */
  function FindByTenantId(registry: seq<Organization>, t: string): (r: Option<Organization>)
    ensures r.Some? ==> r.value.tenantId == t && r.value in registry
    ensures r.Some? ==> exists i :: 0 <= i < |registry| && registry[i] == r.value
                                    && forall j :: 0 <= j < i ==> registry[j].tenantId != t
    ensures r.None? <==> !HasTenant(registry, t)
  {
    match FirstIndexOf(registry, t)
    case None => None
    case Some(i) => Some(registry[i])
  }

  /** `Organization.findAllOrganizations`: every registry row, in order. */
  function FindAllOrganizations(registry: seq<Organization>): (r: seq<Organization>)
    ensures |r| == |registry|
    ensures forall i :: 0 <= i < |r| ==> r[i] == registry[i]
  {
    registry
  }

  /** The registry with the row at position `i` removed. */
  function RemoveAt(registry: seq<Organization>, i: nat): (r: seq<Organization>)
    requires i < |registry|
    ensures |r| == |registry| - 1
    ensures forall j :: 0 <= j < i ==> r[j] == registry[j]
    ensures forall j :: i <= j < |r| ==> r[j] == registry[j + 1]
  {
    registry[..i] + registry[i + 1..]
  }

  /** A lookup finds a row exactly when the full listing holds a row with
      that tenant id. */
  lemma FindIffListed(registry: seq<Organization>, t: string)
    ensures FindByTenantId(registry, t).Some?
            <==> exists o :: o in FindAllOrganizations(registry) && o.tenantId == t
  {
  }

  /** The listing is the registry itself: same rows, same order. */
  lemma FindAllIsRegistry(registry: seq<Organization>)
    ensures FindAllOrganizations(registry) == registry
  {
  }

  /** With unique tenant ids, the row found is the only row with that id. */
  lemma FindUniqueMatch(registry: seq<Organization>, t: string, k: nat)
    requires UniqueTenantIds(registry)
    requires k < |registry| && registry[k].tenantId == t
    ensures FindByTenantId(registry, t) == Some(registry[k])
    ensures FirstIndexOf(registry, t) == Some(k)
  {
  }

  /** Removing a row keeps tenant ids unique. */
  lemma RemovePreservesUnique(registry: seq<Organization>, i: nat)
    requires i < |registry|
    requires UniqueTenantIds(registry)
    ensures UniqueTenantIds(RemoveAt(registry, i))
  {
  }

  /** Removing the only row with tenant id `t` leaves no row with that id. */
  lemma RemoveOnlyMatch(registry: seq<Organization>, i: nat)
    requires i < |registry|
    requires UniqueTenantIds(registry)
    ensures !HasTenant(RemoveAt(registry, i), registry[i].tenantId)
  {
  }
}

=== FILE: quoting.dfy ===
/** Quoting of tenant identifiers for use as schema names in DDL text.

    A tenant id is turned into an SQL delimited identifier (section 5.2 of
    ISO/IEC 9075-2, `<delimited identifier>`): it is wrapped in double quotes
    and every double quote inside it is doubled (`<doublequote symbol>`).
    The module also gives the inverse (`Unquote`) and a lexer for delimited
    identifiers as the standard defines them, so that "cannot break out of the
    identifier position" can be stated as: the lexer reads back exactly the
    tenant id and stops exactly at the closing quote. */
module Quoting {
  import opened Wrappers

  const DoubleQuote: char := '"'

  /** Number of occurrences of `c` in `s`. */
  function Count(s: string, c: char): nat
  {
    if s == [] then 0 else (if s[0] == c then 1 else 0) + Count(s[1..], c)
  }

  /** `s.replace("\"", "\"\"")`: each double quote becomes two. */
  function Escape(s: string): (r: string)
    ensures |r| == |s| + Count(s, DoubleQuote)
    ensures Count(r, DoubleQuote) == 2 * Count(s, DoubleQuote)
  {
    if s == [] then []
    else if s[0] == DoubleQuote then [DoubleQuote, DoubleQuote] + Escape(s[1..])
    else [s[0]] + Escape(s[1..])
  }

  /** `quoteTenantIdentifier`: the delimited-identifier form of `s`. */
  function Quote(s: string): (r: string)
    ensures |r| == |s| + 2 + Count(s, DoubleQuote)
    ensures r[0] == DoubleQuote && r[|r| - 1] == DoubleQuote
    ensures r[1..|r| - 1] == Escape(s)
  {
    [DoubleQuote] + Escape(s) + [DoubleQuote]
  }

  /** Collapses each doubled quote of a delimited-identifier body back to one
      quote; `None` when the body holds a quote that is not doubled. */
  function Unescape(b: string): Option<string>
  {
    if b == [] then Some([])
    else if b[0] != DoubleQuote then
      match Unescape(b[1..])
      case None => None
      case Some(t) => Some([b[0]] + t)
    else if |b| >= 2 && b[1] == DoubleQuote then
      match Unescape(b[2..])
      case None => None
      case Some(t) => Some([DoubleQuote] + t)
    else None
  }

  /** Inverse of `Quote`: strips the outer quotes and collapses the doubled
      ones; `None` for text that is not of the form `Quote(s)`. */
  function Unquote(q: string): Option<string>
  {
    if |q| >= 2 && q[0] == DoubleQuote && q[|q| - 1] == DoubleQuote
    then Unescape(q[1..|q| - 1])
    else None
  }

  /** Every double quote of `b` belongs to an adjacent doubled pair, reading
      from the left: no single quote that could end an identifier. */
  predicate QuotesPaired(b: string)
  {
    if b == [] then true
    else if b[0] != DoubleQuote then QuotesPaired(b[1..])
    else |b| >= 2 && b[1] == DoubleQuote && QuotesPaired(b[2..])
  }

  /** Reads a delimited-identifier body and its closing quote from the front
      of `t`, as the lexer of section 5.2 of ISO/IEC 9075-2 does: a quote
      followed by a quote is one `<doublequote symbol>`; any other quote ends
      the identifier. Yields the identifier and the characters consumed
      (closing quote included); `None` when no closing quote is found. */
  function LexBody(t: string): Option<(string, nat)>
  {
    if t == [] then None
    else if t[0] == DoubleQuote then
      if |t| >= 2 && t[1] == DoubleQuote then
        match LexBody(t[2..])
        case None => None
        case Some((id, n)) => Some(([DoubleQuote] + id, n + 2))
      else Some(([], 1))
    else
      match LexBody(t[1..])
      case None => None
      case Some((id, n)) => Some(([t[0]] + id, n + 1))
  }

  /** Reads one `<delimited identifier>` from the front of `t`: the
      identifier it names and the number of characters it occupies. The
      standard requires a non-empty body, so `""` is rejected. */
  function LexDelimitedIdentifier(t: string): Option<(string, nat)>
  {
    if |t| > 0 && t[0] == DoubleQuote then
      match LexBody(t[1..])
      case None => None
      case Some((id, n)) => if id == [] then None else Some((id, n + 1))
    else None
  }

  /** An id without quotes is quoted by wrapping alone. */
  lemma {:induction false} QuoteWithoutQuotes(s: string)
    requires Count(s, DoubleQuote) == 0
    ensures Escape(s) == s
    ensures Quote(s) == [DoubleQuote] + s + [DoubleQuote]
  {
    if s != [] {
      QuoteWithoutQuotes(s[1..]);
      assert s == [s[0]] + s[1..];
    }
  }

  /** The worked example: `a"b` is quoted as `"a""b"`. */
  lemma QuoteExample()
    ensures Quote("a\"b") == "\"a\"\"b\""
    ensures Unquote("\"a\"\"b\"") == Some("a\"b")
  {
    assert Escape("b") == "b";
    assert Escape("\"b") == "\"\"b";
    assert Escape("a\"b") == "a\"\"b";
    UnquoteQuote("a\"b");
  }

  /** Collapsing the doubled quotes undoes `Escape`. */
  lemma {:induction false} UnescapeEscape(s: string)
    ensures Unescape(Escape(s)) == Some(s)
  {
    if s != [] {
      UnescapeEscape(s[1..]);
      var e := Escape(s);
      if s[0] == DoubleQuote {
        assert e[2..] == Escape(s[1..]);
      } else {
        assert e[1..] == Escape(s[1..]);
      }
      assert s == [s[0]] + s[1..];
    }
  }

  /** Whatever `Unescape` accepts is exactly the escape of what it returns. */
  lemma {:induction false} EscapeUnescape(b: string)
    requires Unescape(b).Some?
    ensures Escape(Unescape(b).value) == b
  {
    if b != [] {
      if b[0] != DoubleQuote {
        EscapeUnescape(b[1..]);
        var t := Unescape(b[1..]).value;
        assert ([b[0]] + t)[1..] == t;
        assert b == [b[0]] + b[1..];
      } else {
        EscapeUnescape(b[2..]);
        var t := Unescape(b[2..]).value;
        assert ([DoubleQuote] + t)[1..] == t;
        assert b == [DoubleQuote, DoubleQuote] + b[2..];
      }
    }
  }

  /** Round trip: unquoting a quoted id gives the id back. */
  lemma UnquoteQuote(s: string)
    ensures Unquote(Quote(s)) == Some(s)
  {
    var q := Quote(s);
    assert q[1..|q| - 1] == Escape(s);
    UnescapeEscape(s);
  }

  /** `Unquote` accepts exactly the quoted forms: what it returns quotes
      back to its input. */
  lemma QuoteUnquote(q: string)
    requires Unquote(q).Some?
    ensures Quote(Unquote(q).value) == q
  {
    EscapeUnescape(q[1..|q| - 1]);
    assert q == [DoubleQuote] + q[1..|q| - 1] + [DoubleQuote];
  }

  /** Distinct tenant ids give distinct quoted names. */
  lemma QuoteInjective(a: string, b: string)
    requires Quote(a) == Quote(b)
    ensures a == b
  {
    UnquoteQuote(a);
    UnquoteQuote(b);
  }

  /** Inside the quotes, every double quote comes as a doubled pair. */
  lemma {:induction false} EscapedQuotesPaired(s: string)
    ensures QuotesPaired(Escape(s))
  {
    if s != [] {
      EscapedQuotesPaired(s[1..]);
      var e := Escape(s);
      if s[0] == DoubleQuote {
        assert e[2..] == Escape(s[1..]);
      } else {
        assert e[1..] == Escape(s[1..]);
      }
    }
  }

  /** A body is accepted by `Unescape` exactly when its quotes are paired. */
  lemma {:induction false} PairedIffUnescapes(b: string)
    ensures QuotesPaired(b) <==> Unescape(b).Some?
  {
    if b != [] {
      if b[0] != DoubleQuote {
        PairedIffUnescapes(b[1..]);
      } else if |b| >= 2 && b[1] == DoubleQuote {
        PairedIffUnescapes(b[2..]);
      }
    }
  }

  /** The lexer reads the escaped body of `s` back as `s` and stops at the
      quote right after it, provided the text after that quote does not start
      with another quote. */
  lemma {:induction false} LexEscaped(s: string, rest: string)
    requires rest == [] || rest[0] != DoubleQuote
    ensures LexBody(Escape(s) + [DoubleQuote] + rest) == Some((s, |Escape(s)| + 1))
  {
    var t := Escape(s) + [DoubleQuote] + rest;
    if s == [] {
      assert t == [DoubleQuote] + rest;
    } else {
      var tail := Escape(s[1..]) + [DoubleQuote] + rest;
      LexEscaped(s[1..], rest);
      var n := |Escape(s[1..])| + 1;
      assert LexBody(tail) == Some((s[1..], n));
      if s[0] == DoubleQuote {
        assert Escape(s) == [DoubleQuote, DoubleQuote] + Escape(s[1..]);
        assert t == [DoubleQuote, DoubleQuote] + tail;
        assert t[2..] == tail;
        assert LexBody(t) == Some(([DoubleQuote] + s[1..], n + 2));
      } else {
        assert Escape(s) == [s[0]] + Escape(s[1..]);
        assert t == [s[0]] + tail;
        assert t[1..] == tail;
        assert LexBody(t) == Some(([s[0]] + s[1..], n + 1));
      }
      assert s == [s[0]] + s[1..];
    }
  }

  /** Injection safety: the quoted form of a non-empty id, followed by any
      text that does not itself begin with a quote, is lexed as one delimited
      identifier naming exactly that id and ending exactly where the quoted
      form ends. Nothing in the id can end the identifier early. */
  lemma QuotedIdentifierLexes(s: string, rest: string)
    requires s != []
    requires rest == [] || rest[0] != DoubleQuote
    ensures LexDelimitedIdentifier(Quote(s) + rest) == Some((s, |Quote(s)|))
  {
    var t := Quote(s) + rest;
    assert t[1..] == Escape(s) + [DoubleQuote] + rest;
    LexEscaped(s, rest);
  }

  /** The lexer rejects the quoted form of the empty id (`""`). */
  lemma EmptyQuotedIdentifierRejected(rest: string)
    requires rest == [] || rest[0] != DoubleQuote
    ensures LexDelimitedIdentifier(Quote([]) + rest) == None
  {
  }
}

=== FILE: resolver.dfy ===
/** The per-request tenant resolver. Today it ignores the request and always
    names the default tenant `base`. */
module TenantResolution {
  import opened Wrappers
  import Quoting

  /** The tenant every request is routed to. */
  const DefaultTenant: string := "base"

  /** `getDefaultTenantId`: the fallback tenant, a non-empty id without quote
      characters, so quoting it only wraps it and the wrapped form reads back
      as the same id. */
  function GetDefaultTenantId(): (r: string)
    ensures r == "base"
    ensures r != "" && Quoting.Count(r, Quoting.DoubleQuote) == 0
    ensures Quoting.Quote(r) == [Quoting.DoubleQuote] + r + [Quoting.DoubleQuote]
    ensures Quoting.Unquote(Quoting.Quote(r)) == Some(r)
  {
    assert Quoting.Count(DefaultTenant, Quoting.DoubleQuote) == 0;
    Quoting.QuoteWithoutQuotes(DefaultTenant);
    Quoting.UnquoteQuote(DefaultTenant);
    DefaultTenant
  }

  /** `resolveTenantId`: total, whatever the request; always the default. */
  function ResolveTenantId<Request>(request: Request): (r: string)
    ensures r == GetDefaultTenantId()
  {
    DefaultTenant
  }

  /** Two requests always resolve to the same tenant. */
  lemma ResolutionIgnoresRequest<Request>(a: Request, b: Request)
    ensures ResolveTenantId(a) == ResolveTenantId(b) == "base"
  {
  }
}

=== FILE: schema_manager.dfy ===
/** Schema provisioning and startup reconciliation.

    The database is abstracted to a `State`: the registry rows, the set of
    tenant schemas that exist, the subset of those whose tenant migrations have
    been applied, and whether the public (metadata) schema has been set up.
    Whether a DDL statement or a migration run fails is decided by an explicit
    failure oracle, `Env`, so the error paths can be stated. */
module SchemaManager {
  import opened Wrappers
  import Quoting
  import opened Organizations

  /** What the database does with one provisioning attempt. */
  datatype Step = Succeeds | CreateFails | MigrateFails

  /** The failure oracle: the outcome of setting up the public schema, and of
      each tenant's schema (tenants not in the map succeed). */
  datatype Env = Env(publicStep: Step, tenantSteps: map<string, Step>)
  {
    function TenantStep(t: string): Step
    {
      if t in tenantSteps then tenantSteps[t] else Succeeds
    }
  }

  datatype State = State(
    registry: seq<Organization>,
    schemas: set<string>,
    migrated: set<string>,
    publicReady: bool)

  /** The two `RuntimeException`s the manager raises. */
  datatype Error = PublicSchemaFailed | TenantSchemaFailed(tenantId: string)

  const PublicFailureMessage: string := "Failed to initialize public schema"
  const TenantFailurePrefix: string := "Failed to initialize tenant schema: "

  /** The exception message (`getMessage()`) of each error: a fixed text for
      the public schema, and for a tenant a fixed prefix followed by the
      tenant id. */
  function Message(e: Error): (r: string)
    ensures e.PublicSchemaFailed? ==> r == PublicFailureMessage
    ensures e.TenantSchemaFailed? ==>
              && |r| == |TenantFailurePrefix| + |e.tenantId|
              && r[..|TenantFailurePrefix|] == TenantFailurePrefix
              && r[|TenantFailurePrefix|..] == e.tenantId
  {
    match e
    case PublicSchemaFailed => PublicFailureMessage
    case TenantSchemaFailed(t) => TenantFailurePrefix + t
  }

  /** Distinct errors have distinct messages: the message tells the public
      failure from a tenant failure, and names the failing tenant. */
  lemma MessageIdentifiesError(a: Error, b: Error)
    requires Message(a) == Message(b)
    ensures a == b
  {
    var k := |TenantFailurePrefix|;
    if a.TenantSchemaFailed? && b.TenantSchemaFailed? {
      assert a.tenantId == Message(a)[k..] == Message(b)[k..] == b.tenantId;
    }
  }

  datatype Outcome = Done | Failed(error: Error)

  /** The result of one provisioning call: normal return or exception, and
      the database state it leaves behind. */
  datatype Effect = Effect(outcome: Outcome, state: State)

  const CreateSchemaPrefix: string := "CREATE SCHEMA IF NOT EXISTS "

  /** The DDL text `initializeTenantSchema` sends for `tenantId`: the fixed
      prefix, then a delimited identifier that unquotes to exactly
      `tenantId`. */
  function CreateSchemaStatement(tenantId: string): (r: string)
    ensures |r| > |CreateSchemaPrefix|
    ensures r[..|CreateSchemaPrefix|] == CreateSchemaPrefix
    ensures Quoting.Unquote(r[|CreateSchemaPrefix|..]) == Some(tenantId)
  {
    var r := CreateSchemaPrefix + Quoting.Quote(tenantId);
    assert r[|CreateSchemaPrefix|..] == Quoting.Quote(tenantId);
    Quoting.UnquoteQuote(tenantId);
    r
  }

  /** How the database reads a statement of the form
      `CREATE SCHEMA IF NOT EXISTS <delimited identifier>`: the schema it
      names, or `None` when the text is not exactly one such statement. */
  function SchemaNamedBy(stmt: string): Option<string>
  {
    var p := |CreateSchemaPrefix|;
    if |stmt| >= p && stmt[..p] == CreateSchemaPrefix then
      match Quoting.LexDelimitedIdentifier(stmt[p..])
      case None => None
      case Some((id, n)) => if n == |stmt| - p then Some(id) else None
    else None
  }

  /** The statement built for a tenant id names exactly that schema, and
      nothing follows it; only the empty id yields a rejected statement. */
  lemma StatementNamesTenant(t: string)
    ensures SchemaNamedBy(CreateSchemaStatement(t)) == if t == "" then None else Some(t)
  {
    var stmt := CreateSchemaStatement(t);
    var p := |CreateSchemaPrefix|;
    assert stmt[..p] == CreateSchemaPrefix;
    assert stmt[p..] == Quoting.Quote(t) + "";
    if t == "" {
      Quoting.EmptyQuotedIdentifierRejected("");
    } else {
      Quoting.QuotedIdentifierLexes(t, "");
    }
  }

  /** Provisioning `t` leaves a schema named `t` behind. */
  predicate SchemaCreated(env: Env, t: string)
  {
    t != "" && env.TenantStep(t) != CreateFails
  }

  /** Provisioning `t` returns normally. */
  predicate TenantInitSucceeds(env: Env, t: string)
  {
    t != "" && env.TenantStep(t) == Succeeds
  }

  /** `initializeTenantSchema`: sends `CreateSchemaStatement(tenantId)`,
      then runs the tenant migrations. The statement creates the schema it
      names, which is `tenantId` itself, and the statement for the empty id
      is rejected (`InitializeFollowsStatement` connects the two). Any
      failure is reported as an error naming the tenant; a failed migration
      leaves the schema created but unmigrated. The registry and the public
      schema are never touched, and no schema other than `tenantId` is
      added. */
  function InitializeTenantSchema(s: State, tenantId: string, env: Env): (r: Effect)
    ensures r.state.registry == s.registry && r.state.publicReady == s.publicReady
    ensures r.outcome.Done? <==> TenantInitSucceeds(env, tenantId)
    ensures r.outcome.Failed? ==> r.outcome.error == TenantSchemaFailed(tenantId)
    ensures r.state.schemas == if SchemaCreated(env, tenantId) then s.schemas + {tenantId} else s.schemas
    ensures r.state.migrated == if TenantInitSucceeds(env, tenantId) then s.migrated + {tenantId} else s.migrated
  {
    var fail := Failed(TenantSchemaFailed(tenantId));
    if tenantId == "" || env.TenantStep(tenantId) == CreateFails then Effect(fail, s)
    else
      var created := s.(schemas := s.schemas + {tenantId});
      if env.TenantStep(tenantId) == MigrateFails then Effect(fail, created)
      else Effect(Done, created.(migrated := created.migrated + {tenantId}))
  }

  /** Provisioning acts on the schema its DDL text names: when the statement
      is accepted and the create step passes, exactly the schema the
      statement names is added; when the statement is rejected, provisioning
      fails and changes nothing. */
  lemma InitializeFollowsStatement(s: State, t: string, env: Env)
    ensures var r := InitializeTenantSchema(s, t, env);
            match SchemaNamedBy(CreateSchemaStatement(t))
            case None => r == Effect(Failed(TenantSchemaFailed(t)), s)
            case Some(n) => r.state.schemas == if env.TenantStep(t) == CreateFails then s.schemas else s.schemas + {n}
  {
    StatementNamesTenant(t);
  }

  /** `initializePublicSchema`: sets up the metadata schema; on failure
      nothing is recorded and the error is the public-schema one. */
  function InitializePublicSchema(s: State, env: Env): (r: Effect)
    ensures r.outcome.Done? <==> env.publicStep == Succeeds
    ensures r.outcome.Failed? ==> r.outcome.error == PublicSchemaFailed
    ensures r.state.registry == s.registry && r.state.schemas == s.schemas && r.state.migrated == s.migrated
    ensures r.state.publicReady == (s.publicReady || env.publicStep == Succeeds)
  {
    if env.publicStep == Succeeds then Effect(Done, s.(publicReady := true))
    else Effect(Failed(PublicSchemaFailed), s)
  }

  /** The tenant half of startup: the attempted tenant ids, in order. */
  datatype Reconciliation = Reconciliation(outcome: Outcome, state: State, attempted: seq<string>)

  /** The `forEach` of `onStart`: provisions each organization's schema in
      list order and stops at the first failure, rethrowing it. The attempted
      ids are a prefix of the list, the whole list when the run completes; a
      failure is the error of the last attempted tenant. */
  function ReconcileTenants(s: State, orgs: seq<Organization>, env: Env): (r: Reconciliation)
    ensures r.state.registry == s.registry && r.state.publicReady == s.publicReady
    ensures |r.attempted| <= |orgs|
    ensures forall i :: 0 <= i < |r.attempted| ==> r.attempted[i] == orgs[i].tenantId
    ensures r.outcome.Done? ==> |r.attempted| == |orgs|
    ensures r.outcome.Failed? ==>
              |r.attempted| > 0 && r.outcome.error == TenantSchemaFailed(orgs[|r.attempted| - 1].tenantId)
    decreases |orgs|
  {
    if orgs == [] then Reconciliation(Done, s, [])
    else
      var t := orgs[0].tenantId;
      var e := InitializeTenantSchema(s, t, env);
      if e.outcome.Failed? then Reconciliation(e.outcome, e.state, [t])
      else
        var rest := ReconcileTenants(e.state, orgs[1..], env);
        Reconciliation(rest.outcome, rest.state, [t] + rest.attempted)
  }

  /** Abort at the first failure: every attempted tenant but the last
      succeeded, a failed run's last tenant failed, and the run completes
      exactly when every tenant of the list succeeds. */
  lemma {:induction false} ReconcileStopsAtFirstFailure(s: State, orgs: seq<Organization>, env: Env)
    ensures var r := ReconcileTenants(s, orgs, env);
            && (forall i :: 0 <= i < |r.attempted| - 1 ==> TenantInitSucceeds(env, orgs[i].tenantId))
            && (r.outcome.Failed? ==> !TenantInitSucceeds(env, orgs[|r.attempted| - 1].tenantId))
            && (r.outcome.Done? <==> forall i :: 0 <= i < |orgs| ==> TenantInitSucceeds(env, orgs[i].tenantId))
    decreases |orgs|
  {
    if orgs != [] {
      var e := InitializeTenantSchema(s, orgs[0].tenantId, env);
      if e.outcome.Done? {
        ReconcileStopsAtFirstFailure(e.state, orgs[1..], env);
      }
    }
  }

  /** The tenants among `a` whose schema the oracle lets be created. */
  function CreatedAmong(a: seq<string>, env: Env): set<string>
  {
    set t | t in a && SchemaCreated(env, t)
  }

  /** The tenants among `a` whose provisioning the oracle lets succeed. */
  function MigratedAmong(a: seq<string>, env: Env): set<string>
  {
    set t | t in a && TenantInitSucceeds(env, t)
  }

  lemma AmongCons(t: string, a: seq<string>, env: Env)
    ensures CreatedAmong([t] + a, env) == (if SchemaCreated(env, t) then {t} else {}) + CreatedAmong(a, env)
    ensures MigratedAmong([t] + a, env) == (if TenantInitSucceeds(env, t) then {t} else {}) + MigratedAmong(a, env)
  {
  }

  /** The schemas after the loop are those before plus the attempted tenants
      whose schema got created; likewise for the migrated schemas. Nothing
      else is added and nothing is removed. */
  lemma {:induction false} ReconcileSchemas(s: State, orgs: seq<Organization>, env: Env)
    ensures var r := ReconcileTenants(s, orgs, env);
            && r.state.schemas == s.schemas + CreatedAmong(r.attempted, env)
            && r.state.migrated == s.migrated + MigratedAmong(r.attempted, env)
    decreases |orgs|
  {
    var r := ReconcileTenants(s, orgs, env);
    if orgs == [] {
      assert CreatedAmong([], env) == {} && MigratedAmong([], env) == {};
    } else {
      var t := orgs[0].tenantId;
      var e := InitializeTenantSchema(s, t, env);
      if e.outcome.Failed? {
        assert r == Reconciliation(e.outcome, e.state, [t]);
        AmongCons(t, [], env);
        assert [t] + [] == [t];
      } else {
        var rest := ReconcileTenants(e.state, orgs[1..], env);
        ReconcileSchemas(e.state, orgs[1..], env);
        assert r == Reconciliation(rest.outcome, rest.state, [t] + rest.attempted);
        AmongCons(t, rest.attempted, env);
      }
    }
  }

  /** One step of the startup trace. */
  datatype Event = InitPublic | InitTenant(tenantId: string)

  /** The trace steps for provisioning the tenants `a`, in order. */
  function TenantEvents(a: seq<string>): (r: seq<Event>)
    ensures |r| == |a|
    ensures forall i :: 0 <= i < |a| ==> r[i] == InitTenant(a[i])
  {
    if a == [] then [] else [InitTenant(a[0])] + TenantEvents(a[1..])
  }

  /** Outcome of `onStart` (a failure means the exception escapes and the
      application does not start), final state, and the steps taken. */
  datatype StartReport = StartReport(outcome: Outcome, state: State, trace: seq<Event>)

  /** `onStart`: the public schema first, then the registered organizations
      in registry order. A public failure ends the run before any tenant is
      touched; tenants are touched only once the public schema is ready. */
  function OnStart(s: State, env: Env): (r: StartReport)
    ensures |r.trace| >= 1 && r.trace[0] == InitPublic
    ensures |r.trace| <= |s.registry| + 1
    ensures forall i :: 1 <= i < |r.trace| ==> r.trace[i] == InitTenant(s.registry[i - 1].tenantId)
    ensures env.publicStep != Succeeds ==> r == StartReport(Failed(PublicSchemaFailed), s, [InitPublic])
    ensures |r.trace| > 1 ==> env.publicStep == Succeeds && r.state.publicReady
    ensures r.state.registry == s.registry
  {
    var p := InitializePublicSchema(s, env);
    if p.outcome.Failed? then StartReport(p.outcome, p.state, [InitPublic])
    else
      var rec := ReconcileTenants(p.state, FindAllOrganizations(p.state.registry), env);
      StartReport(rec.outcome, rec.state, [InitPublic] + TenantEvents(rec.attempted))
  }

  /** What startup does to the tenant schemas: it only adds. After a
      successful public step the schemas are those before plus the attempted
      tenants (a prefix of the registry) whose schema got created, and the
      migrated schemas those before plus the attempted tenants that
      succeeded. No schema or migration mark is ever dropped, including
      those of tenants no longer registered. */
  lemma OnStartSchemas(s: State, env: Env)
    ensures var r := OnStart(s, env);
            && (env.publicStep == Succeeds ==>
                  exists a :: && |a| <= |s.registry|
                              && (forall i :: 0 <= i < |a| ==> a[i] == s.registry[i].tenantId)
                              && r.trace == [InitPublic] + TenantEvents(a)
                              && r.state.schemas == s.schemas + CreatedAmong(a, env)
                              && r.state.migrated == s.migrated + MigratedAmong(a, env))
            && s.schemas <= r.state.schemas && s.migrated <= r.state.migrated
  {
    if env.publicStep == Succeeds {
      var p := InitializePublicSchema(s, env);
      var rec := ReconcileTenants(p.state, s.registry, env);
      ReconcileSchemas(p.state, s.registry, env);
      assert OnStart(s, env) == StartReport(rec.outcome, rec.state, [InitPublic] + TenantEvents(rec.attempted));
    }
  }

  /** Startup succeeds exactly when the public schema and every registered
      tenant can be provisioned. A failure after the public schema names the
      first failing tenant in registry order: all before it succeeded and
      none after it was attempted. */
  lemma OnStartOutcome(s: State, env: Env)
    ensures var r := OnStart(s, env);
            && (r.outcome.Done? <==>
                  && env.publicStep == Succeeds
                  && forall i :: 0 <= i < |s.registry| ==> TenantInitSucceeds(env, s.registry[i].tenantId))
            && (r.outcome.Failed? && env.publicStep == Succeeds ==>
                  var k := |r.trace| - 2;
                  && 0 <= k < |s.registry|
                  && r.outcome.error == TenantSchemaFailed(s.registry[k].tenantId)
                  && !TenantInitSucceeds(env, s.registry[k].tenantId)
                  && forall j :: 0 <= j < k ==> TenantInitSucceeds(env, s.registry[j].tenantId))
  {
    if env.publicStep == Succeeds {
      var p := InitializePublicSchema(s, env);
      var rec := ReconcileTenants(p.state, s.registry, env);
      ReconcileStopsAtFirstFailure(p.state, s.registry, env);
      var r := OnStart(s, env);
      assert r == StartReport(rec.outcome, rec.state, [InitPublic] + TenantEvents(rec.attempted));
      if rec.outcome.Failed? {
        var k := |rec.attempted| - 1;
        assert |r.trace| - 2 == k;
        assert r.outcome.error == TenantSchemaFailed(s.registry[k].tenantId);
        assert !TenantInitSucceeds(env, s.registry[k].tenantId);
        assert forall j :: 0 <= j < k ==> TenantInitSucceeds(env, s.registry[j].tenantId);
      }
    }
  }

  /** A successful startup leaves the public schema ready and every
      registered tenant with a migrated schema, having visited each once. */
  lemma OnStartProvisionsAll(s: State, env: Env)
    ensures var r := OnStart(s, env);
            r.outcome.Done? ==>
              && r.state.publicReady
              && |r.trace| == |s.registry| + 1
              && forall o :: o in s.registry ==> o.tenantId in r.state.schemas && o.tenantId in r.state.migrated
  {
    var r := OnStart(s, env);
    if r.outcome.Done? {
      var p := InitializePublicSchema(s, env);
      var rec := ReconcileTenants(p.state, s.registry, env);
      ReconcileStopsAtFirstFailure(p.state, s.registry, env);
      ReconcileSchemas(p.state, s.registry, env);
      forall o | o in s.registry
        ensures o.tenantId in r.state.schemas && o.tenantId in r.state.migrated
      {
        var i :| 0 <= i < |s.registry| && s.registry[i] == o;
        assert rec.attempted[i] == o.tenantId;
      }
    }
  }

  /** Provisioning is idempotent: a second call for the same tenant returns
      the same outcome and changes nothing. */
  lemma InitializeTenantSchemaIdempotent(s: State, t: string, env: Env)
    ensures var once := InitializeTenantSchema(s, t, env);
            InitializeTenantSchema(once.state, t, env) == once
  {
  }

  /** Provisioning a tenant whose schema already exists and is migrated is
      a no-op that succeeds, provided the oracle lets it succeed. */
  lemma InitializeAbsorbed(s: State, t: string, env: Env)
    requires TenantInitSucceeds(env, t) && t in s.schemas && t in s.migrated
    ensures InitializeTenantSchema(s, t, env) == Effect(Done, s)
  {
  }

  /** Re-running the tenant half of startup on its own result reproduces
      that result. */
  lemma {:induction false} ReconcileIdempotent(s: State, orgs: seq<Organization>, env: Env)
    ensures var once := ReconcileTenants(s, orgs, env);
            ReconcileTenants(once.state, orgs, env) == once
    decreases |orgs|
  {
    var once := ReconcileTenants(s, orgs, env);
    if orgs != [] {
      var t := orgs[0].tenantId;
      var e := InitializeTenantSchema(s, t, env);
      if e.outcome.Done? {
        var mid := ReconcileTenants(e.state, orgs[1..], env);
        assert once == Reconciliation(mid.outcome, mid.state, [t] + mid.attempted);
        assert t in e.state.schemas && t in e.state.migrated;
        ReconcileSchemas(e.state, orgs[1..], env);
        InitializeAbsorbed(once.state, t, env);
        ReconcileIdempotent(e.state, orgs[1..], env);
        assert ReconcileTenants(mid.state, orgs[1..], env) == mid;
      } else {
        assert once == Reconciliation(e.outcome, e.state, [t]);
        InitializeTenantSchemaIdempotent(s, t, env);
      }
    }
  }

  /** Startup is idempotent: restarting on the state a startup left behind
      gives the same outcome, the same trace and the same state. */
  lemma OnStartIdempotent(s: State, env: Env)
    ensures var once := OnStart(s, env);
            OnStart(once.state, env) == once
  {
    var once := OnStart(s, env);
    if env.publicStep == Succeeds {
      var p := InitializePublicSchema(s, env);
      var p2 := InitializePublicSchema(once.state, env);
      ReconcileIdempotent(p.state, s.registry, env);
      assert p2.state == once.state;
    }
  }

  /** Startup aborts at a failing tenant: with tenants `acme`, `beta`,
      `gamma` registered and `beta`'s provisioning failing, the run fails
      naming `beta`, `acme` is provisioned, and `gamma` is never attempted. */
  lemma StartupAbortsAtFirstFailure(acme: Organization, beta: Organization, gamma: Organization)
    requires acme.tenantId == "acme" && beta.tenantId == "beta" && gamma.tenantId == "gamma"
    ensures var env := Env(Succeeds, map["beta" := CreateFails]);
            var r := OnStart(State([acme, beta, gamma], {}, {}, false), env);
            && r.outcome == Failed(TenantSchemaFailed("beta"))
            && r.trace == [InitPublic, InitTenant("acme"), InitTenant("beta")]
            && r.state.schemas == {"acme"}
            && "gamma" !in r.state.schemas
  {
    var env := Env(Succeeds, map["beta" := CreateFails]);
    var reg := [acme, beta, gamma];
    var s := State(reg, {}, {}, false);
    var s1 := State(reg, {}, {}, true);
    var s2 := State(reg, {"acme"}, {"acme"}, true);
    assert InitializePublicSchema(s, env) == Effect(Done, s1);
    assert env.TenantStep("acme") == Succeeds;
    assert env.TenantStep("beta") == CreateFails;
    assert InitializeTenantSchema(s1, "acme", env) == Effect(Done, s2);
    assert InitializeTenantSchema(s2, "beta", env) == Effect(Failed(TenantSchemaFailed("beta")), s2);
    assert reg[1..] == [beta, gamma];
    assert ReconcileTenants(s2, [beta, gamma], env) == Reconciliation(Failed(TenantSchemaFailed("beta")), s2, ["beta"]);
    assert ReconcileTenants(s1, reg, env) == Reconciliation(Failed(TenantSchemaFailed("beta")), s2, ["acme", "beta"]);
    assert TenantEvents(["acme", "beta"]) == [InitTenant("acme"), InitTenant("beta")];
  }

  /** A registered organization with an empty tenant id makes every startup
      fail: its `CREATE SCHEMA` statement names no schema. */
  lemma EmptyTenantIdBlocksStartup(s: State, env: Env, k: nat)
    requires k < |s.registry| && s.registry[k].tenantId == ""
    ensures OnStart(s, env).outcome.Failed?
  {
    OnStartOutcome(s, env);
    assert !TenantInitSucceeds(env, s.registry[k].tenantId);
  }
}

=== FILE: wrappers.dfy ===
/** The optional-value type used where the modelled Java code returns `null`
    or an absent result. */
module Wrappers {

  /** `None` stands for Java's `null` / "no such element". */
  datatype Option<+T> = None | Some(value: T)
}
